=== FILE: README.md ===
# TEME transcript scorer: a Dafny model of the metric core

The scorer compares an ASR transcript (the hypothesis) with a reference
transcript and a list of gold medical terms. It reports three numbers:

- the **word error rate** (WER): the token-level Levenshtein distance
  between the normalized texts divided by the number of reference tokens,
  or 0.0 for an empty reference;
- the **Terminology Medical Recall** (TMR), reported as an error rate: the
  severity-weighted share of gold terms that were not found in the
  hypothesis. The total weight is summed
  over the gold list with duplicates. The missed weight is summed over the
  set of missing terms. A zero total gives 0.0;
- **TEME-Error**: the blend `alpha * WER + (1 - alpha) * TMR`.

Both texts and terms go through the same normalizer. It lower-cases,
decomposes (NFD), drops nonspacing marks, masks everything outside
`a-z`, `0-9` and space, collapses spaces and trims. A gold term counts as
found when its normalized form is a substring of the normalized
hypothesis.

Modules, one per file:

- `Normalizer` (`normalizer.dfy`): `normalize`, step by step, with the shape
  of its output and its fixed points.
- `Tokens` (`tokens.dfy`): whitespace splitting of normalized text and its
  inverse.
- `EditDistance` (`edit_distance.dfy`): the recursive Levenshtein
  recurrence, edit scripts, and the table-filling method of `compute_wer`
  proved to compute it.
- `Wer` (`wer.dfy`): `compute_wer`.
- `TermMatcher` (`term_matcher.dfy`): `find_terms_in_text`.
- `Tmr` (`tmr.dfy`): `compute_tmr`.
- `Teme` (`teme.dfy`): `teme_error`.
- `Scoring` (`scoring.dfy`): how `process_single` chains the metrics.
- `Examples` (`examples.dfy`): concrete cases, each derived from the
  general definitions.

Scores are exact rationals (`real`), and the edit distance is a `nat`.
`severity_weights=None` is `Option<map<string, real>>`.

The docstring of `compute_wer` promises a value between 0 and 1. The code
does not keep that promise. The rate is guaranteed to be at most 1 when the
hypothesis has no more tokens than the reference
(`Wer.WerAtMostOneForShortHypotheses`).
`Examples.WerCanExceedOne` shows that "a" against "b c d" scores 3.0.
The docstring of `compute_tmr` promises a value in [0, 1], but the code
accepts any weight values. TMR is guaranteed to lie in [0, 1] for non-negative
weights (`Tmr.TmrBounds`). `Examples.TmrCanExceedOne` shows a negative weight giving
a TMR of 2.0.

## Model

| member | source | states |
|---|---|---|
| Normalizer.Lower | metrics.py:8 | the length is kept, each character is lower-cased on its own, no ASCII capital remains, and text of a-z, 0-9 and space is unchanged |
| Normalizer.Nfd | metrics.py:9 | text without Latin-1 Supplement letters is already in decomposed form |
| Normalizer.NfdAppend | metrics.py:9 | decomposition works character by character, so it distributes over concatenation |
| Normalizer.DropMarks | metrics.py:10 | the result holds no nonspacing mark and is a subsequence of the input |
| Normalizer.DropMarksCounts | metrics.py:10 | every character other than a nonspacing mark is kept as often as it occurs, and no mark is kept |
| Normalizer.Mask | metrics.py:11 | the length is kept, each character is kept if it is in a-z, 0-9 or space and becomes a space otherwise, so the result holds only those characters |
| Normalizer.Strip | metrics.py:12 | the result neither starts nor ends with a space, is all-allowed or single-spaced when the input is, and a string already trimmed is unchanged |
| Tokens.SplitOfStrip | metrics.py:12 | trimming both ends keeps the words of the text, in order |
| Normalizer.Collapse | metrics.py:12 | the result has no doubled, leading or trailing space, and holds only allowed characters when the input does |
| Tokens.SplitOfCollapse | metrics.py:12 | collapsing runs of spaces and trimming keeps the words of the text, in order |
| Normalizer.Normalize | metrics.py:4-12 | the result holds only a-z, 0-9 and space, has no leading, trailing or doubled space, and the empty text normalizes to "" |
| Normalizer.Squeeze | metrics.py:12 | the result has no two adjacent spaces, starts with the same character and adds no new characters |
| Tokens.SplitOfSqueeze | metrics.py:12 | squeezing runs of spaces keeps the words of the text, in order |
| Tokens.SplitOfTrimStart | metrics.py:12 | dropping leading spaces keeps the words of the text |
| Tokens.SplitOfTrimEnd | metrics.py:12 | dropping trailing spaces keeps the words of the text |
| Tokens.NormalizeIsJoinedWords | metrics.py:8-12 | the normal form is the words of the lower-cased, decomposed, mark-free, masked text joined by single spaces |
| Normalizer.TrimStart | metrics.py:12 | only leading spaces are removed, and the result does not start with a space |
| Normalizer.TrimEnd | metrics.py:12 | only trailing spaces are removed, and the result does not end with a space |
| Normalizer.NormalizeFixesNormalized | metrics.py:8-12 | a string already in normalized shape is its own normal form |
| Normalizer.NormalizeIdempotent | metrics.py:8-12 | normalizing twice equals normalizing once |
| Normalizer.NormalizeIgnoresCase | metrics.py:8 | lower-casing the input first does not change the normal form |
| Normalizer.LowerIdempotent | metrics.py:8 | lower-casing twice equals lower-casing once |
| Normalizer.FoldAppend | metrics.py:8-10 | lower-casing, decomposition and mark removal distribute over concatenation |
| Normalizer.NormalizeIgnoresMarks | metrics.py:9-10 | inserting a nonspacing mark from U+0300-U+036F anywhere leaves the normal form unchanged |
| Tokens.Split | metrics.py:19-20 | every token is non-empty and space-free, and a text that starts with a non-space yields at least one token |
| Tokens.JoinSplit | metrics.py:19-20 | a text without leading, trailing or doubled spaces is the tokens joined by single spaces |
| Tokens.SplitJoin | metrics.py:19-20 | splitting the space-join of tokens gives those tokens back |
| EditDistance.Lev | metrics.py:26-38 | the first row and the first column hold j and i, and no entry exceeds i + j, the cost of deleting every reference token and inserting every hypothesis token |
| EditDistance.Distance | metrics.py:22-39 | against an empty sequence the distance is the other length, and it never exceeds the sum of the lengths |
| EditDistance.FillRow | metrics.py:32-38 | after the inner loop, row i holds the recurrence value in every column, and every other row of the table is unchanged |
| EditDistance.ComputeDistance | metrics.py:22-38 | the table's bottom-right entry equals the Levenshtein distance of the token sequences |
| EditDistance.TableEntryIsPrefixDistance | metrics.py:25-38 | table entry (i, j) is the distance between the first i reference tokens and the first j hypothesis tokens |
| EditDistance.Alignment | metrics.py:31-38 | some edit script of deletions, insertions and substitutions turns the reference into the hypothesis at a cost equal to the distance |
| EditDistance.DistanceIsMinimal | metrics.py:31-38 | no edit script is cheaper than the distance |
| EditDistance.DistanceBounds | metrics.py:26-38 | the distance is at least the length difference and at most the longer length |
| EditDistance.DistanceZeroIffEqual | metrics.py:33-38 | the distance is zero exactly when the token sequences are equal |
| EditDistance.DistanceSymmetric | metrics.py:34-38 | swapping reference and hypothesis leaves the distance unchanged |
| Wer.TokensOf | metrics.py:19-20 | the tokens, joined by single spaces, give back the normalized text, and there are none exactly when it is empty |
| Wer.Rate | metrics.py:39 | the rate is non-negative, is 0.0 for an empty reference, and otherwise times the reference length equals the distance |
| Wer.WordErrorRate | metrics.py:14-39 | the rate is non-negative and is 0.0 whenever the normalized reference is empty |
| Wer.ComputeWer | metrics.py:14-39 | normalizing, splitting, filling the table and dividing by the reference length yields the word error rate |
| Wer.RateZeroIff | metrics.py:39 | on token sequences the rate is zero exactly when the reference is empty or equals the hypothesis |
| Wer.RateBounds | metrics.py:39 | for n reference and m hypothesis tokens, the rate lies between abs(n - m) / n and max(n, m) / n |
| Wer.RateAtMostOne | metrics.py:39 | with no more hypothesis than reference tokens, the rate is at most 1 |
| Wer.WerOfIdenticalTexts | metrics.py:14-39 | a text scored against itself has rate 0 |
| Wer.WerZeroIff | metrics.py:14-39 | WER is 0 exactly when the normalized reference is empty or both texts normalize to the same text |
| Wer.WerBounds | metrics.py:14-39 | for a non-empty normalized reference, WER lies between abs(n - m) / n and max(n, m) / n |
| Wer.WerAtMostOneForShortHypotheses | metrics.py:14-39 | WER stays at most 1 when the hypothesis has no more tokens than the reference |
| TermMatcher.Contains | score.py:44 | the substring test holds exactly when the pattern occurs at some offset of the text |
| TermMatcher.Matches | score.py:44 | a term matches exactly when its normal form occurs in the normalized text |
| TermMatcher.FindTerms | score.py:42-46 | the loop returns no more terms than it was given |
| TermMatcher.FindTermsIsSubsequence | score.py:42-46 | the loop returns a subsequence of the terms, in input order |
| TermMatcher.FindTermsCounts | score.py:43-45 | each matching term is kept as often as it occurs in the input, and a non-matching term is never kept |
| TermMatcher.FindTermsInText | score.py:39-46 | the result is an order-preserving subsequence of the original terms, holding every copy of each term whose normal form occurs in the normalized text and nothing else |
| TermMatcher.FoundIffMatched | score.py:39-46 | a term is in the result exactly when it is an input term that matches, and the result is no longer than the input |
| TermMatcher.EmptyTermAlwaysFound | score.py:44 | a term whose normal form is empty is found in any text |
| Tmr.WeightsOrEmpty | metrics.py:49-50 | an absent weight map becomes the empty map, and a given map is used as it is |
| Tmr.Weight | metrics.py:52 | a term without an entry weighs 1, and with non-negative weights no term weighs less than 0 |
| Tmr.WeightSum | metrics.py:52 | with non-negative weights the sum is non-negative, and when no listed term has an entry the sum is the length of the list |
| Tmr.MissingTerms | metrics.py:53-54 | the listing is duplicate-free and holds exactly the gold terms absent from the recognized terms |
| Tmr.ComputeTmr | metrics.py:41-62 | when every gold term is recognized, or the total weight is zero, the rate is 0.0 |
| Tmr.SumOrderFree | metrics.py:57 | the weighted sum over a set does not depend on how the set is listed |
| Tmr.SubsetSumBounded | metrics.py:52-57 | with non-negative weights, the missed weight lies between 0 and the total weight |
| Tmr.MissingDependsOnSharedTerms | metrics.py:53-54 | the missing terms depend only on which gold terms were recognized |
| Tmr.TmrBounds | metrics.py:47-62 | with non-negative weights, TMR lies in [0, 1] |
| Tmr.TmrAbsentWeightsAreEmpty | metrics.py:49-50 | no weight map behaves exactly as the empty map |
| Tmr.TmrUnweighted | metrics.py:52-62 | without weights, TMR is the number of distinct missed terms over the length of the gold list |
| Tmr.TmrIgnoresSpuriousTerms | metrics.py:53-61 | recognized terms outside the gold list do not change TMR |
| Tmr.TmrAllMissed | metrics.py:52-62 | a duplicate-free gold list with no recognized term and a non-zero total scores 1 |
| Teme.TemeError | metrics.py:64-69 | alpha 1 gives WER, alpha 0 gives TMR, and alpha 0.5, the default when the caller gives none, gives their mean |
| Teme.TemeBetweenInputs | metrics.py:64-69 | for alpha in [0, 1], the blend lies between the smaller and the larger of WER and TMR |
| Scoring.ScoreSingle | score.py:10-16 | WER is non-negative, TMR is in [0, 1] for non-negative weights, and TEME lies between them for alpha in [0, 1] |
| Scoring.MissedTermsAreUnmatched | score.py:14-15 | fed the terms found in the hypothesis, TMR counts as missed exactly the gold terms that do not match the normalized hypothesis |
| Scoring.PerfectTranscriptScoresZero | score.py:10-16 | a hypothesis equal to the reference, containing every gold term, scores zero on all three metrics |
| Examples.NormalizePunctuationSplitsWords | metrics.py:11-12 | "a-b" normalizes to "a b": a masked character separates words |
| Examples.NormalizeCafe | metrics.py:8-12 | "Café" and "cafe" both normalize to "cafe" |
| Examples.WerOneSubstitution | metrics.py:14-39 | "a b c" against "a x c" scores 1/3 |
| Examples.WerOneInsertion | metrics.py:14-39 | "a b c" against "a b c d" scores 1/3 |
| Examples.WerEmptyReference | metrics.py:39 | an empty reference scores 0.0 against every hypothesis |
| Examples.WerCanExceedOne | metrics.py:17-39 | "a" against "b c d" scores 3.0, above the documented range |
| Examples.SubstringMatchInsideWord | score.py:44-45 | the term "ear" is found in "nearly" |
| Examples.AccentInsensitiveMatch | score.py:41-45 | the term "Café" is found in "CAFE" and is reported as "Café" |
| Examples.TmrExamples | metrics.py:41-62 | one missed term out of two scores 0.5, an empty gold list scores 0.0, and a missed term of weight 3 against a total of 4 scores 0.75 |
| Examples.TmrDuplicateCountsOnceWhenMissed | metrics.py:52-57 | a gold list ["fever", "fever"] with nothing recognized scores 0.5 |
| Examples.TmrWeightKeysAreRaw | metrics.py:52-57 | a weight keyed "Fever" does not apply to the term "fever" |
| Examples.TmrCanExceedOne | metrics.py:52-62 | gold terms weighted 2 and -1, with the first one missed, score 2.0 |
| Examples.TmrZeroTotal | metrics.py:62 | weights that cancel out give 0.0 although every term was missed |
| Examples.TemeExamples | metrics.py:64-69 | blending 0.2 and 0.4 gives 0.3 with the default alpha, and 0.2 and 0.4 for alpha 1 and 0 |

## Left out

- Normalizer.Strip: its own contract states only the shape of the result. That it keeps the words of the text, in order, is stated by `Tokens.SplitOfStrip`.
- Normalizer.Collapse: its own contract states only the shape of the result. That it keeps the words of the text, in order, is stated by `Tokens.SplitOfCollapse`.
- Normalizer.Squeeze: its own contract states only the shape of the result. That it keeps the words of the text, in order, is stated by `Tokens.SplitOfSqueeze`, and `Tokens.NormalizeIsJoinedWords` states the whole of step (e) that way.

- Normalizer.Lower: lower-cases ASCII and the Latin-1 Supplement capitals only. Python's `str.lower` covers all of Unicode, and the rest of the table is not modelled. Other characters pass through unchanged and are masked to a space later, unless they are already in a-z or 0-9.
- Normalizer.Nfd: decomposes only the Latin-1 Supplement letters that carry one diacritic, into the letter and its combining mark. The contract states only that text without such letters is left as it is. The decompositions themselves are the entries of `LatinDecompositions`, which no ensures restates. Canonical reordering of combining marks is not modelled. Marks are dropped in the next step, so their order does not matter for the result.
- Normalizer.IsNonspacingMark: treats only the Combining Diacritical Marks block U+0300-U+036F as category Mn. Marks from other blocks are masked to a space instead of being dropped.
- `\s` in metrics.py:12 and the default `split()` in metrics.py:19-20 match any Unicode whitespace. After masking, the plain space is the only whitespace left, so the model splits and trims on ' ' alone. This is exact.
- Floating point: scores, weights and alpha are exact rationals. Rounding of Python floats, and an int or float type for a weight, are not modelled. For example, `Examples.TemeExamples` states that blending 0.2 and 0.4 gives exactly 0.3, where Python's floats give 0.30000000000000004.
- Weight values: the JSON weight file may hold values of any type. The model takes real-valued weights.
- Argument parsing, mode validation, file reading, JSON and CSV loading, and quote stripping (score.py:6-8, 23-37, 48-85) are not modelled. They are input and output glue.
- Printing of the percentages in `process_single` (score.py:19-21) is not modelled. `Scoring.ScoreSingle` returns the three numbers instead.
- `hyp_terms` may be any iterable in `compute_tmr`. The model takes a sequence, the form in which `find_terms_in_text` returns it.

=== FILE: edit_distance.dfy ===
/**
 Token-level edit distance, the core of `compute_wer` (metrics.py).

 `Dist(r, h, i, j)` is entry (i, j) of the table in metrics.py: the Levenshtein
 distance between the first `i` tokens of `r` and the first `j` tokens of
 `h`, given by the same recurrence. `AlignsPrefix` says what an edit script
 is, and the lemmas show that the distance is exactly the cheapest script.
 `ComputeDistance` is the table-filling algorithm of metrics.py, proved to
 compute `Distance`.
 */
module EditDistance {

  function Min3(a: nat, b: nat, c: nat): (m: nat)
    ensures m <= a && m <= b && m <= c
    ensures m == a || m == b || m == c
  {
    if a <= b && a <= c then a else if b <= c then b else c
  }

  /** Cost of replacing token `x` by token `y`. */
  function SubstitutionCost<T(==)>(x: T, y: T): nat {
    if x == y then 0 else 1
  }

  /** The Levenshtein recurrence, with unit cost deletions, insertions and
      substitutions, over the first `i` tokens of `r` and the first `j`
      tokens of `h`. The first row and column of the table hold the cost of
      inserting, or deleting, every token, and no entry exceeds the cost of
      deleting every reference token and inserting every hypothesis token. */
  function Lev<T(==)>(r: seq<T>, h: seq<T>, i: nat, j: nat): (d: nat)
    requires i <= |r| && j <= |h|
    ensures (i == 0 || j == 0) ==> d == i + j
    ensures d <= i + j
    decreases i + j
  {
    if i == 0 then j
    else if j == 0 then i
    else
      Min3(Lev(r, h, i - 1, j) + 1,                                        // deletion
           Lev(r, h, i, j - 1) + 1,                                        // insertion
           Lev(r, h, i - 1, j - 1) + SubstitutionCost(r[i - 1], h[j - 1]))  // substitution
  }

  /** Entry (i, j) of the table: the distance between the first `i` tokens
      of `r` and the first `j` tokens of `h`. The contracts below speak of
      `Dist` rather than `Lev`, so that each proof unfolds the recurrence
      one step at a time. */
  function Dist<T(==)>(r: seq<T>, h: seq<T>, i: nat, j: nat): nat
    requires i <= |r| && j <= |h|
  {
    Lev(r, h, i, j)
  }

  /** Levenshtein distance between two token sequences. */
  function Distance<T(==)>(r: seq<T>, h: seq<T>): (d: nat)
    ensures |r| == 0 ==> d == |h|
    ensures |h| == 0 ==> d == |r|
    ensures d <= |r| + |h|
  {
    Dist(r, h, |r|, |h|)
  }

  /** An entry of the table depends only on the prefixes it covers. */
  lemma {:induction false} DistOfSamePrefixes<T>(r: seq<T>, h: seq<T>, r2: seq<T>, h2: seq<T>, i: nat, j: nat)
    requires i <= |r| && i <= |r2| && j <= |h| && j <= |h2|
    requires forall k :: 0 <= k < i ==> r[k] == r2[k]
    requires forall k :: 0 <= k < j ==> h[k] == h2[k]
    ensures Dist(r, h, i, j) == Dist(r2, h2, i, j)
    decreases i + j
  {
    if i > 0 && j > 0 {
      DistOfSamePrefixes(r, h, r2, h2, i - 1, j);
      DistOfSamePrefixes(r, h, r2, h2, i, j - 1);
      DistOfSamePrefixes(r, h, r2, h2, i - 1, j - 1);
      assert r[i - 1] == r2[i - 1] && h[j - 1] == h2[j - 1];
    }
  }

  /** Entry (i, j) of the table is the distance between the prefixes of
      lengths i and j. */
  lemma TableEntryIsPrefixDistance<T>(r: seq<T>, h: seq<T>, i: nat, j: nat)
    requires i <= |r| && j <= |h|
    ensures Dist(r, h, i, j) == Distance(r[..i], h[..j])
  {
    DistOfSamePrefixes(r, h, r[..i], h[..j], i, j);
  }

  // ---------------------------------------------------------------------
  // Edit scripts

  /** One step of an edit script: copy a token unchanged, replace it,
      insert a token of the hypothesis, or delete a token of the reference. */
  datatype Edit = Keep | Substitute | Insert | Delete

  function Cost(ops: seq<Edit>): nat {
    if |ops| == 0 then 0
    else Cost(ops[..|ops| - 1]) + (if ops[|ops| - 1] == Keep then 0 else 1)
  }

  /** The script `ops` turns the first `i` tokens of `r` into the first `j`
      tokens of `h`. */
  predicate AlignsPrefix<T(==)>(ops: seq<Edit>, r: seq<T>, h: seq<T>, i: nat, j: nat)
    requires i <= |r| && j <= |h|
    decreases |ops|
  {
    if |ops| == 0 then i == 0 && j == 0
    else
      var rest := ops[..|ops| - 1];
      match ops[|ops| - 1]
      case Keep =>
        i > 0 && j > 0 && r[i - 1] == h[j - 1] && AlignsPrefix(rest, r, h, i - 1, j - 1)
      case Substitute =>
        i > 0 && j > 0 && AlignsPrefix(rest, r, h, i - 1, j - 1)
      case Insert =>
        j > 0 && AlignsPrefix(rest, r, h, i, j - 1)
      case Delete =>
        i > 0 && AlignsPrefix(rest, r, h, i - 1, j)
  }

  /** The script `ops` turns `r` into `h`. */
  predicate Aligns<T(==)>(ops: seq<Edit>, r: seq<T>, h: seq<T>) {
    AlignsPrefix(ops, r, h, |r|, |h|)
  }

  lemma AppendStep(ops: seq<Edit>, op: Edit)
    ensures (ops + [op])[..|ops|] == ops
    ensures Cost(ops + [op]) == Cost(ops) + (if op == Keep then 0 else 1)
  {
    assert (ops + [op])[..|ops|] == ops;
  }

  /** A script for table entry (i, j) whose cost is that entry. */
  function PrefixAlignment<T(==)>(r: seq<T>, h: seq<T>, i: nat, j: nat): (ops: seq<Edit>)
    requires i <= |r| && j <= |h|
    ensures AlignsPrefix(ops, r, h, i, j)
    ensures Cost(ops) == Dist(r, h, i, j)
    decreases i + j
  {
    if i == 0 && j == 0 then []
    else if i == 0 then
      var ops := PrefixAlignment(r, h, i, j - 1);
      AppendStep(ops, Insert);
      ops + [Insert]
    else if j == 0 then
      var ops := PrefixAlignment(r, h, i - 1, j);
      AppendStep(ops, Delete);
      ops + [Delete]
    else
      var del := Dist(r, h, i - 1, j) + 1;
      var ins := Dist(r, h, i, j - 1) + 1;
      var sub := Dist(r, h, i - 1, j - 1) + SubstitutionCost(r[i - 1], h[j - 1]);
      if del <= ins && del <= sub then
        var ops := PrefixAlignment(r, h, i - 1, j);
        AppendStep(ops, Delete);
        ops + [Delete]
      else if ins <= sub then
        var ops := PrefixAlignment(r, h, i, j - 1);
        AppendStep(ops, Insert);
        ops + [Insert]
      else
        var ops := PrefixAlignment(r, h, i - 1, j - 1);
        var op := if r[i - 1] == h[j - 1] then Keep else Substitute;
        AppendStep(ops, op);
        ops + [op]
  }

  /** A script whose cost is the distance: the distance is achievable. */
  function Alignment<T(==)>(r: seq<T>, h: seq<T>): (ops: seq<Edit>)
    ensures Aligns(ops, r, h)
    ensures Cost(ops) == Distance(r, h)
  {
    PrefixAlignment(r, h, |r|, |h|)
  }

  lemma {:induction false} PrefixMinimal<T>(ops: seq<Edit>, r: seq<T>, h: seq<T>, i: nat, j: nat)
    requires i <= |r| && j <= |h|
    requires AlignsPrefix(ops, r, h, i, j)
    ensures Dist(r, h, i, j) <= Cost(ops)
    decreases |ops|
  {
    if |ops| > 0 {
      var rest := ops[..|ops| - 1];
      match ops[|ops| - 1]
      case Keep =>
        PrefixMinimal(rest, r, h, i - 1, j - 1);
      case Substitute =>
        PrefixMinimal(rest, r, h, i - 1, j - 1);
      case Insert =>
        PrefixMinimal(rest, r, h, i, j - 1);
      case Delete =>
        PrefixMinimal(rest, r, h, i - 1, j);
    }
  }

  /** No script is cheaper than the distance: the distance is minimal. */
  lemma DistanceIsMinimal<T>(ops: seq<Edit>, r: seq<T>, h: seq<T>)
    requires Aligns(ops, r, h)
    ensures Distance(r, h) <= Cost(ops)
  {
    PrefixMinimal(ops, r, h, |r|, |h|);
  }

  // ---------------------------------------------------------------------
  // Properties of the distance

  lemma {:induction false} DistAtLeastLengthGap<T>(r: seq<T>, h: seq<T>, i: nat, j: nat)
    requires i <= |r| && j <= |h|
    ensures i - j <= Dist(r, h, i, j) && j - i <= Dist(r, h, i, j)
    decreases i + j
  {
    if i > 0 && j > 0 {
      DistAtLeastLengthGap(r, h, i - 1, j);
      DistAtLeastLengthGap(r, h, i, j - 1);
      DistAtLeastLengthGap(r, h, i - 1, j - 1);
    }
  }

  lemma {:induction false} DistAtMostLonger<T>(r: seq<T>, h: seq<T>, i: nat, j: nat)
    requires i <= |r| && j <= |h|
    ensures Dist(r, h, i, j) <= if i <= j then j else i
    decreases i + j
  {
    if i > 0 && j > 0 {
      DistAtMostLonger(r, h, i - 1, j - 1);
    }
  }

  /** The distance lies between the length difference and the longer length. */
  lemma DistanceBounds<T>(r: seq<T>, h: seq<T>)
    ensures |r| - |h| <= Distance(r, h) && |h| - |r| <= Distance(r, h)
    ensures Distance(r, h) <= if |r| <= |h| then |h| else |r|
  {
    DistAtLeastLengthGap(r, h, |r|, |h|);
    DistAtMostLonger(r, h, |r|, |h|);
  }

  lemma {:induction false} DistZeroIff<T>(r: seq<T>, h: seq<T>, i: nat, j: nat)
    requires i <= |r| && j <= |h|
    ensures Dist(r, h, i, j) == 0 <==> i == j && forall k :: 0 <= k < i ==> r[k] == h[k]
    decreases i + j
  {
    if i > 0 && j > 0 {
      DistZeroIff(r, h, i - 1, j - 1);
    }
  }

  /** Distance zero means equal token sequences, and only that. */
  lemma DistanceZeroIffEqual<T>(r: seq<T>, h: seq<T>)
    ensures Distance(r, h) == 0 <==> r == h
  {
    DistZeroIff(r, h, |r|, |h|);
  }

  lemma {:induction false} DistSymmetric<T>(r: seq<T>, h: seq<T>, i: nat, j: nat)
    requires i <= |r| && j <= |h|
    ensures Dist(r, h, i, j) == Dist(h, r, j, i)
    decreases i + j
  {
    if i > 0 && j > 0 {
      DistSymmetric(r, h, i - 1, j);
      DistSymmetric(r, h, i, j - 1);
      DistSymmetric(r, h, i - 1, j - 1);
    }
  }

  /** Swapping reference and hypothesis swaps deletions and insertions and
      leaves the distance unchanged. */
  lemma DistanceSymmetric<T>(r: seq<T>, h: seq<T>)
    ensures Distance(r, h) == Distance(h, r)
  {
    DistSymmetric(r, h, |r|, |h|);
  }

  // ---------------------------------------------------------------------
  // The table-filling algorithm

  /** Fills row `i` of the table from row `i - 1`, left to right. */
  method FillRow<T(==)>(dp: array2<nat>, r: seq<T>, h: seq<T>, i: nat)
    requires dp.Length0 == |r| + 1 && dp.Length1 == |h| + 1
    requires 1 <= i <= |r|
    requires forall l {:trigger dp[i - 1, l]} :: 0 <= l <= |h| ==> dp[i - 1, l] == Dist(r, h, i - 1, l)
    requires dp[i, 0] == i
    modifies dp
    ensures forall l {:trigger dp[i, l]} :: 0 <= l <= |h| ==> dp[i, l] == Dist(r, h, i, l)
    ensures forall k, l :: 0 <= k < dp.Length0 && 0 <= l < dp.Length1 && k != i ==> dp[k, l] == old(dp[k, l])
  {
    for j := 1 to |h| + 1
      invariant forall l {:trigger dp[i - 1, l]} :: 0 <= l <= |h| ==> dp[i - 1, l] == Dist(r, h, i - 1, l)
      invariant forall l {:trigger dp[i, l]} :: 0 <= l < j ==> dp[i, l] == Dist(r, h, i, l)
      invariant forall k, l :: 0 <= k < dp.Length0 && 0 <= l < dp.Length1 && k != i ==> dp[k, l] == old(dp[k, l])
    {
      var cost := if r[i - 1] == h[j - 1] then 0 else 1;
      dp[i, j] := Min3(dp[i - 1, j] + 1,         // deletion
                       dp[i, j - 1] + 1,         // insertion
                       dp[i - 1, j - 1] + cost); // substitution
    }
  }

  /** Fills the (|r|+1) x (|h|+1) table row by row, as metrics.py does, and
      returns its bottom-right entry. */
  method ComputeDistance<T(==)>(r: seq<T>, h: seq<T>) returns (d: nat)
    ensures d == Distance(r, h)
  {
    var n, m := |r|, |h|;
    var dp := new nat[n + 1, m + 1];
    for i := 0 to n + 1
      invariant forall k :: 0 <= k < i ==> dp[k, 0] == k
    {
      dp[i, 0] := i;
    }
    for j := 0 to m + 1
      invariant forall k :: 0 <= k <= n ==> dp[k, 0] == k
      invariant forall l :: 0 <= l < j ==> dp[0, l] == l
    {
      dp[0, j] := j;
    }
    for i := 1 to n + 1
      invariant forall l {:trigger dp[i - 1, l]} :: 0 <= l <= m ==> dp[i - 1, l] == Dist(r, h, i - 1, l)
      invariant forall k :: i <= k <= n ==> dp[k, 0] == k
    {
      FillRow(dp, r, h, i);
    }
    d := dp[n, m];
  }
}

=== FILE: examples.dfy ===
/**
 Worked examples of the documented behaviour of the scorer, each derived
 from the general definitions. Each concrete string is evaluated in small
 steps, one lemma per step.
 */
module Examples {

  import opened Normalizer
  import opened Tokens
  import opened EditDistance
  import opened Wer
  import opened TermMatcher
  import opened Tmr
  import opened Teme

  // ---------------------------------------------------------------------
  // Normalization

  lemma LowerCafe()
    ensures Lower("Caf\U{00E9}") == "caf\U{00E9}"
  {
  }

  lemma NfdCafe()
    ensures Nfd("caf\U{00E9}") == "cafe\U{0301}"
  {
  }

  lemma DropMarksCafe()
    ensures DropMarks("cafe\U{0301}") == "cafe"
  {
  }

  lemma FoldCafe()
    ensures Fold("Caf\U{00E9}") == "cafe"
  {
    LowerCafe();
    NfdCafe();
    DropMarksCafe();
  }

  lemma CafeIsNormalized()
    ensures IsNormalized("cafe")
  {
  }

  lemma NormalizeAccentedCafe()
    ensures Normalize("Caf\U{00E9}") == "cafe"
  {
    FoldCafe();
    CafeIsNormalized();
    NormalizeOfFolded("Caf\U{00E9}", "cafe");
  }

  /** Case and accents do not survive normalization. */
  lemma NormalizeCafe()
    ensures Normalize("Caf\U{00E9}") == Normalize("cafe") == "cafe"
  {
    NormalizeAccentedCafe();
    CafeIsNormalized();
    NormalizeFixesNormalized("cafe");
  }

  lemma LowerAMinusB()
    ensures Lower("a-b") == "a-b"
  {
  }

  lemma NfdAMinusB()
    ensures Nfd("a-b") == "a-b"
  {
  }

  lemma DropMarksAMinusB()
    ensures DropMarks("a-b") == "a-b"
  {
  }

  lemma MaskAMinusB()
    ensures Mask("a-b") == "a b"
  {
  }

  lemma SplitAB()
    ensures Split("a b") == ["a", "b"]
  {
    JoinAB();
    SplitJoin(["a", "b"]);
  }

  lemma FoldAMinusB()
    ensures Fold("a-b") == "a-b"
  {
    LowerAMinusB();
    NfdAMinusB();
    DropMarksAMinusB();
  }

  lemma WordsOfAMinusB()
    ensures Split(Mask(Fold("a-b"))) == ["a", "b"]
  {
    FoldAMinusB();
    MaskAMinusB();
    SplitAB();
  }

  lemma JoinAB()
    ensures Join(["a", "b"]) == "a b"
  {
  }

  /** A character outside a-z, 0-9 and space separates words. */
  lemma NormalizePunctuationSplitsWords()
    ensures Normalize("a-b") == "a b"
  {
    NormalizeIsJoinedWords("a-b");
    WordsOfAMinusB();
    JoinAB();
  }

  // ---------------------------------------------------------------------
  // Word error rate

  lemma ABCIsJoined()
    ensures IsNormalized("a b c") && AllTokens(["a", "b", "c"]) && Join(["a", "b", "c"]) == "a b c"
  {
  }

  lemma TokensOfABC()
    ensures TokensOf("a b c") == ["a", "b", "c"]
  {
    ABCIsJoined();
    TokensOfNormalized("a b c", ["a", "b", "c"]);
  }

  lemma AXCIsJoined()
    ensures IsNormalized("a x c") && AllTokens(["a", "x", "c"]) && Join(["a", "x", "c"]) == "a x c"
  {
  }

  lemma TokensOfAXC()
    ensures TokensOf("a x c") == ["a", "x", "c"]
  {
    AXCIsJoined();
    TokensOfNormalized("a x c", ["a", "x", "c"]);
  }

  lemma ABCDIsJoined()
    ensures IsNormalized("a b c d") && AllTokens(["a", "b", "c", "d"]) && Join(["a", "b", "c", "d"]) == "a b c d"
  {
  }

  lemma TokensOfABCD()
    ensures TokensOf("a b c d") == ["a", "b", "c", "d"]
  {
    ABCDIsJoined();
    TokensOfNormalized("a b c d", ["a", "b", "c", "d"]);
  }

  lemma DistanceOneSubstitution()
    ensures Distance(["a", "b", "c"], ["a", "x", "c"]) == 1
  {
    var r, h := ["a", "b", "c"], ["a", "x", "c"];
    var ops := [Keep, Substitute, Keep];
    assert AlignsPrefix(ops[..1], r, h, 1, 1);
    assert AlignsPrefix(ops[..2], r, h, 2, 2);
    assert Aligns(ops, r, h);
    assert Cost(ops) == 1 by {
      assert ops[..2][..1] == ops[..1];
      assert Cost(ops[..1]) == 0;
    }
    DistanceIsMinimal(ops, r, h);
    assert r[1] != h[1];
    DistanceZeroIffEqual(r, h);
  }

  lemma DistanceOneInsertion()
    ensures Distance(["a", "b", "c"], ["a", "b", "c", "d"]) == 1
  {
    var r, h := ["a", "b", "c"], ["a", "b", "c", "d"];
    var ops := [Keep, Keep, Keep, Insert];
    assert AlignsPrefix(ops[..1], r, h, 1, 1);
    assert AlignsPrefix(ops[..2], r, h, 2, 2);
    assert AlignsPrefix(ops[..3], r, h, 3, 3);
    assert Aligns(ops, r, h);
    assert Cost(ops) == 1 by {
      assert ops[..2][..1] == ops[..1];
      assert ops[..3][..2] == ops[..2];
      assert Cost(ops[..1]) == 0;
      assert Cost(ops[..2]) == 0;
      assert Cost(ops[..3]) == 0;
    }
    DistanceIsMinimal(ops, r, h);
    DistanceBounds(r, h);
  }

  /** One substituted word out of three. */
  lemma WerOneSubstitution()
    ensures WordErrorRate("a b c", "a x c") == 1.0 / 3.0
  {
    TokensOfABC();
    TokensOfAXC();
    DistanceOneSubstitution();
  }

  /** One inserted word against three reference words. */
  lemma WerOneInsertion()
    ensures WordErrorRate("a b c", "a b c d") == 1.0 / 3.0
  {
    TokensOfABC();
    TokensOfABCD();
    DistanceOneInsertion();
  }

  /** An empty reference scores 0 whatever the hypothesis says. */
  lemma WerEmptyReference(hypothesis: string)
    ensures WordErrorRate("", hypothesis) == 0.0
  {
  }

  lemma AIsJoined()
    ensures IsNormalized("a") && AllTokens(["a"]) && Join(["a"]) == "a"
  {
  }

  lemma TokensOfA()
    ensures TokensOf("a") == ["a"]
  {
    AIsJoined();
    TokensOfNormalized("a", ["a"]);
  }

  lemma BCDIsJoined()
    ensures IsNormalized("b c d") && AllTokens(["b", "c", "d"]) && Join(["b", "c", "d"]) == "b c d"
  {
  }

  lemma TokensOfBCD()
    ensures TokensOf("b c d") == ["b", "c", "d"]
  {
    BCDIsJoined();
    TokensOfNormalized("b c d", ["b", "c", "d"]);
  }

  lemma DistanceOneAgainstThree()
    ensures Distance(["a"], ["b", "c", "d"]) == 3
  {
    var r, h := ["a"], ["b", "c", "d"];
    assert Dist(r, h, 1, 1) == 1;
    assert Dist(r, h, 1, 2) == 2;
  }

  /** The rate is not capped at 1: one reference word against three
      different hypothesis words costs three edits. */
  lemma WerCanExceedOne()
    ensures WordErrorRate("a", "b c d") == 3.0
  {
    TokensOfA();
    TokensOfBCD();
    DistanceOneAgainstThree();
  }

  // ---------------------------------------------------------------------
  // Term matching

  lemma NearlyIsNormalized()
    ensures IsNormalized("nearly")
  {
  }

  lemma NormalizeNearly()
    ensures Normalize("nearly") == "nearly"
  {
    NearlyIsNormalized();
    NormalizeFixesNormalized("nearly");
  }

  lemma EarIsNormalized()
    ensures IsNormalized("ear")
  {
  }

  lemma NormalizeEar()
    ensures Normalize("ear") == "ear"
  {
    EarIsNormalized();
    NormalizeFixesNormalized("ear");
  }

  lemma NearlyContainsEar()
    ensures Contains("nearly", "ear")
  {
    assert OccursAt("ear", "nearly", 1);
  }

  lemma EarMatchesNearly()
    ensures Matches("ear", "nearly")
  {
    NormalizeEar();
    NearlyContainsEar();
  }

  /** Matching is by substring, not by word: "ear" is found inside "nearly". */
  lemma SubstringMatchInsideWord()
    ensures FindTermsInText(["ear"], "nearly") == ["ear"]
  {
    NormalizeNearly();
    EarMatchesNearly();
  }

  lemma LowerShoutedCafe()
    ensures Lower("CAFE") == "cafe"
  {
  }

  lemma NormalizeShoutedCafe()
    ensures Normalize("CAFE") == "cafe"
  {
    LowerShoutedCafe();
    CafeIsNormalized();
    NormalizeOfLowered("CAFE", "cafe");
  }

  lemma CafeContainsCafe()
    ensures Contains("cafe", "cafe")
  {
    assert OccursAt("cafe", "cafe", 0);
  }

  lemma AccentedCafeMatchesCafe()
    ensures Matches("Caf\U{00E9}", "cafe")
  {
    NormalizeAccentedCafe();
    CafeContainsCafe();
  }

  /** Matching ignores case and accents, and reports the term as given. */
  lemma AccentInsensitiveMatch()
    ensures FindTermsInText(["Caf\U{00E9}"], "CAFE") == ["Caf\U{00E9}"]
  {
    NormalizeShoutedCafe();
    AccentedCafeMatchesCafe();
  }

  // ---------------------------------------------------------------------
  // Terminology Medical Recall (an error rate)

  lemma TmrExamples()
    ensures ComputeTmr(["fever", "cough"], ["fever"], None) == 0.5
    ensures ComputeTmr([], ["anything"], None) == 0.0
    ensures ComputeTmr(["fever", "cough"], ["fever"], Some(map["cough" := 3.0])) == 0.75
  {
    assert MissingTerms(["fever", "cough"], ["fever"]) == ["cough"];
  }

  /** A duplicated gold term doubles its share of the total but is missed
      once: missing everything scores 0.5, not 1. */
  lemma TmrDuplicateCountsOnceWhenMissed()
    ensures ComputeTmr(["fever", "fever"], [], None) == 0.5
  {
    assert MissingTerms(["fever", "fever"], []) == ["fever"];
  }

  /** Weights are looked up by the raw term: "Fever" does not weigh "fever". */
  lemma TmrWeightKeysAreRaw()
    ensures ComputeTmr(["fever", "cough"], ["cough"], Some(map["Fever" := 3.0])) == 0.5
  {
    assert MissingTerms(["fever", "cough"], ["cough"]) == ["fever"];
  }

  /** Weights that cancel out give a zero total, and the rate falls back to
      0.0 although every term was missed. */
  lemma TmrZeroTotal()
    ensures ComputeTmr(["fever", "cough"], [], Some(map["fever" := 1.0, "cough" := -1.0])) == 0.0
  {
  }

  /** A negative weight is accepted, and the rate then leaves [0, 1]. */
  lemma TmrCanExceedOne()
    ensures ComputeTmr(["fever", "cough"], ["cough"], Some(map["fever" := 2.0, "cough" := -1.0])) == 2.0
  {
    assert MissingTerms(["fever", "cough"], ["cough"]) == ["fever"];
  }

  // ---------------------------------------------------------------------
  // Composite

  lemma TemeExamples()
    ensures TemeError(0.2, 0.4) == 0.3
    ensures TemeError(0.2, 0.4, 1.0) == 0.2
    ensures TemeError(0.2, 0.4, 0.0) == 0.4
  {
  }
}

=== FILE: normalizer.dfy ===
/**
 The text normalizer of the transcript scorer (metrics.py, `normalize`).

 Normalization runs five steps in order:
   (a) lower-case,
   (b) canonical decomposition (NFD),
   (c) drop nonspacing marks,
   (d) replace every character outside a-z, 0-9 and space by a space,
   (e) collapse runs of whitespace to one space and trim both ends.
 Steps (a)-(c) depend on the Unicode database; this model carries the part
 of it that covers ASCII, the Latin-1 Supplement letters and the Combining
 Diacritical Marks block. Steps (d) and (e) are modelled exactly. After step
 (d) the plain space is the only whitespace character left, so step (e)
 works on ' ' alone.
 */
module Normalizer {

  /** The characters step (d) keeps: a-z, 0-9 and the plain space. */
  predicate IsAllowed(c: char) {
    ('a' <= c <= 'z') || ('0' <= c <= '9') || c == ' '
  }

  predicate AllAllowed(s: string) {
    forall i :: 0 <= i < |s| ==> IsAllowed(s[i])
  }

  predicate NoDoubleSpace(s: string) {
    forall i :: 0 <= i < |s| - 1 ==> s[i] != ' ' || s[i + 1] != ' '
  }

  predicate Trimmed(s: string) {
    |s| > 0 ==> s[0] != ' ' && s[|s| - 1] != ' '
  }

  /** The shape of every output of Normalize. */
  predicate IsNormalized(s: string) {
    AllAllowed(s) && NoDoubleSpace(s) && Trimmed(s)
  }

  // ---------------------------------------------------------------------
  // (a) lower-casing

  /** Lower-case mapping of ASCII and Latin-1 Supplement capitals
      (U+00C0..U+00DE except the multiplication sign U+00D7). */
  function LowerChar(c: char): char {
    if ('A' <= c <= 'Z') || ('\U{00C0}' <= c <= '\U{00DE}' && c != '\U{00D7}') then
      (c as int + 32) as char
    else
      c
  }

  function Lower(s: string): (t: string)
    ensures |t| == |s|
    ensures forall i :: 0 <= i < |s| ==> t[i] == LowerChar(s[i])
    ensures forall i :: 0 <= i < |t| ==> !('A' <= t[i] <= 'Z')
    ensures AllAllowed(s) ==> t == s
  {
    if |s| == 0 then "" else [LowerChar(s[0])] + Lower(s[1..])
  }

  // ---------------------------------------------------------------------
  // (b) canonical decomposition

  /** Canonical decompositions of the Latin-1 Supplement letters that carry
      a diacritic: base letter followed by one combining mark. */
  const LatinDecompositions: map<char, seq<char>> := map[
      '\U{00C0}' := ['A', '\U{0300}'],  // À
      '\U{00C1}' := ['A', '\U{0301}'],  // Á
      '\U{00C2}' := ['A', '\U{0302}'],  // Â
      '\U{00C3}' := ['A', '\U{0303}'],  // Ã
      '\U{00C4}' := ['A', '\U{0308}'],  // Ä
      '\U{00C5}' := ['A', '\U{030A}'],  // Å
      '\U{00C7}' := ['C', '\U{0327}'],  // Ç
      '\U{00C8}' := ['E', '\U{0300}'],  // È
      '\U{00C9}' := ['E', '\U{0301}'],  // É
      '\U{00CA}' := ['E', '\U{0302}'],  // Ê
      '\U{00CB}' := ['E', '\U{0308}'],  // Ë
      '\U{00CC}' := ['I', '\U{0300}'],  // Ì
      '\U{00CD}' := ['I', '\U{0301}'],  // Í
      '\U{00CE}' := ['I', '\U{0302}'],  // Î
      '\U{00CF}' := ['I', '\U{0308}'],  // Ï
      '\U{00D1}' := ['N', '\U{0303}'],  // Ñ
      '\U{00D2}' := ['O', '\U{0300}'],  // Ò
      '\U{00D3}' := ['O', '\U{0301}'],  // Ó
      '\U{00D4}' := ['O', '\U{0302}'],  // Ô
      '\U{00D5}' := ['O', '\U{0303}'],  // Õ
      '\U{00D6}' := ['O', '\U{0308}'],  // Ö
      '\U{00D9}' := ['U', '\U{0300}'],  // Ù
      '\U{00DA}' := ['U', '\U{0301}'],  // Ú
      '\U{00DB}' := ['U', '\U{0302}'],  // Û
      '\U{00DC}' := ['U', '\U{0308}'],  // Ü
      '\U{00DD}' := ['Y', '\U{0301}'],  // Ý
      '\U{00E0}' := ['a', '\U{0300}'],  // à
      '\U{00E1}' := ['a', '\U{0301}'],  // á
      '\U{00E2}' := ['a', '\U{0302}'],  // â
      '\U{00E3}' := ['a', '\U{0303}'],  // ã
      '\U{00E4}' := ['a', '\U{0308}'],  // ä
      '\U{00E5}' := ['a', '\U{030A}'],  // å
      '\U{00E7}' := ['c', '\U{0327}'],  // ç
      '\U{00E8}' := ['e', '\U{0300}'],  // è
      '\U{00E9}' := ['e', '\U{0301}'],  // é
      '\U{00EA}' := ['e', '\U{0302}'],  // ê
      '\U{00EB}' := ['e', '\U{0308}'],  // ë
      '\U{00EC}' := ['i', '\U{0300}'],  // ì
      '\U{00ED}' := ['i', '\U{0301}'],  // í
      '\U{00EE}' := ['i', '\U{0302}'],  // î
      '\U{00EF}' := ['i', '\U{0308}'],  // ï
      '\U{00F1}' := ['n', '\U{0303}'],  // ñ
      '\U{00F2}' := ['o', '\U{0300}'],  // ò
      '\U{00F3}' := ['o', '\U{0301}'],  // ó
      '\U{00F4}' := ['o', '\U{0302}'],  // ô
      '\U{00F5}' := ['o', '\U{0303}'],  // õ
      '\U{00F6}' := ['o', '\U{0308}'],  // ö
      '\U{00F9}' := ['u', '\U{0300}'],  // ù
      '\U{00FA}' := ['u', '\U{0301}'],  // ú
      '\U{00FB}' := ['u', '\U{0302}'],  // û
      '\U{00FC}' := ['u', '\U{0308}'],  // ü
      '\U{00FD}' := ['y', '\U{0301}'],  // ý
      '\U{00FF}' := ['y', '\U{0308}']  // ÿ
    ]

  /** Canonical decomposition of one character; characters without an
      entry in the table are their own decomposition. */
  function Decomposition(c: char): seq<char> {
    if '\U{00C0}' <= c <= '\U{00FF}' && c in LatinDecompositions then
      LatinDecompositions[c]
    else
      [c]
  }

  /** Canonical decomposition (NFD) over the characters the table covers.
      Text without Latin-1 Supplement letters is already decomposed. */
  function Nfd(s: string): (t: string)
    ensures (forall i :: 0 <= i < |s| ==> !('\U{00C0}' <= s[i] <= '\U{00FF}')) ==> t == s
  {
    if |s| == 0 then "" else
      assert s == [s[0]] + s[1..];
      Decomposition(s[0]) + Nfd(s[1..])
  }

  // ---------------------------------------------------------------------
  // (c) dropping nonspacing marks

  /** Unicode general category Mn, restricted to the Combining Diacritical
      Marks block U+0300..U+036F (every character of which is Mn). */
  predicate IsNonspacingMark(c: char) {
    '\U{0300}' <= c <= '\U{036F}'
  }

  /** Leaves out every nonspacing mark and keeps every other character, in
      order. */
  function DropMarks(s: string): (t: string)
    ensures forall i :: 0 <= i < |t| ==> !IsNonspacingMark(t[i])
    ensures IsSubsequence(t, s)
  {
    if |s| == 0 then ""
    else
      assert s == [s[0]] + s[1..];
      if IsNonspacingMark(s[0]) then DropMarks(s[1..])
      else [s[0]] + DropMarks(s[1..])
  }

  // ---------------------------------------------------------------------
  // (d) masking

  function MaskChar(c: char): char {
    if IsAllowed(c) then c else ' '
  }

  function Mask(s: string): (t: string)
    ensures |t| == |s|
    ensures forall i :: 0 <= i < |s| ==> t[i] == MaskChar(s[i])
    ensures AllAllowed(t)
    ensures AllAllowed(s) ==> t == s
  {
    if |s| == 0 then "" else [MaskChar(s[0])] + Mask(s[1..])
  }

  // ---------------------------------------------------------------------
  // (e) collapsing whitespace and trimming

  /** Replaces every run of spaces by a single space. */
  function Squeeze(s: string): (t: string)
    ensures |s| > 0 ==> |t| > 0 && t[0] == s[0]
    ensures forall c :: c in t ==> c in s
    ensures NoDoubleSpace(t)
  {
    if |s| <= 1 then s
    else if s[0] == ' ' && s[1] == ' ' then Squeeze(s[1..])
    else [s[0]] + Squeeze(s[1..])
  }

  /** Drops the leading spaces. */
  function TrimStart(s: string): (t: string)
    ensures |t| <= |s| && t == s[|s| - |t|..]
    ensures forall i :: 0 <= i < |s| - |t| ==> s[i] == ' '
    ensures |t| > 0 ==> t[0] != ' '
    ensures AllAllowed(s) ==> AllAllowed(t)
    ensures NoDoubleSpace(s) ==> NoDoubleSpace(t)
  {
    if |s| > 0 && s[0] == ' ' then
      SliceKeeps(s, 1, |s|);
      assert s[1..|s|] == s[1..];
      TrimStart(s[1..])
    else
      s
  }

  /** Drops the trailing spaces. */
  function TrimEnd(s: string): (t: string)
    ensures t <= s
    ensures forall i :: |t| <= i < |s| ==> s[i] == ' '
    ensures |t| > 0 ==> t[|t| - 1] != ' '
    ensures |t| > 0 ==> t[0] == s[0]
    ensures AllAllowed(s) ==> AllAllowed(t)
    ensures NoDoubleSpace(s) ==> NoDoubleSpace(t)
  {
    if |s| > 0 && s[|s| - 1] == ' ' then
      SliceKeeps(s, 0, |s| - 1);
      TrimEnd(s[..|s| - 1])
    else
      s
  }

  /** Drops the leading and trailing spaces. Only spaces at the ends go, so
      the characters and the single spacing of `s` are kept. */
  function Strip(s: string): (t: string)
    ensures Trimmed(t)
    ensures Trimmed(s) ==> t == s
    ensures AllAllowed(s) ==> AllAllowed(t)
    ensures NoDoubleSpace(s) ==> NoDoubleSpace(t)
  {
    StripTrims(s);
    StripKeeps(s);
    TrimEnd(TrimStart(s))
  }

  lemma StripTrims(s: string)
    ensures Trimmed(TrimEnd(TrimStart(s)))
    ensures Trimmed(s) ==> TrimEnd(TrimStart(s)) == s
  {
  }

  lemma StripKeeps(s: string)
    ensures AllAllowed(s) ==> AllAllowed(TrimEnd(TrimStart(s)))
    ensures NoDoubleSpace(s) ==> NoDoubleSpace(TrimEnd(TrimStart(s)))
  {
  }

  /** Step (e): every run of spaces becomes one space, and both ends are
      trimmed. */
  function Collapse(s: string): (t: string)
    ensures NoDoubleSpace(t) && Trimmed(t)
    ensures AllAllowed(s) ==> AllAllowed(t)
  {
    var q := Squeeze(s);
    assert AllAllowed(s) ==> AllAllowed(q) by {
      if AllAllowed(s) { SqueezeKeepsAllowed(s); }
    }
    Strip(q)
  }

  // ---------------------------------------------------------------------
  // The whole pipeline

  /** Steps (a)-(c): the Unicode-dependent part of normalization. */
  function Fold(text: string): string {
    DropMarks(Nfd(Lower(text)))
  }

  function Normalize(text: string): (r: string)
    ensures IsNormalized(r)
    ensures |text| == 0 ==> r == ""
  {
    Collapse(Mask(Fold(text)))
  }

  lemma {:induction false} SqueezeKeepsAllowed(s: string)
    requires AllAllowed(s)
    ensures AllAllowed(Squeeze(s))
  {
    if |s| > 1 {
      SqueezeKeepsAllowed(s[1..]);
    }
  }

  /** Any slice of a string keeps its characters and its single spacing. */
  lemma SliceKeeps(s: string, lo: int, hi: int)
    requires 0 <= lo <= hi <= |s|
    ensures AllAllowed(s) ==> AllAllowed(s[lo..hi])
    ensures NoDoubleSpace(s) ==> NoDoubleSpace(s[lo..hi])
  {
    if AllAllowed(s) {
      forall i | 0 <= i < hi - lo
        ensures IsAllowed(s[lo..hi][i])
      {
        assert s[lo..hi][i] == s[lo + i];
      }
    }
    if NoDoubleSpace(s) {
      SliceKeepsSingleSpacing(s, lo, hi);
    }
  }

  lemma SliceKeepsSingleSpacing(s: string, lo: int, hi: int)
    requires 0 <= lo <= hi <= |s|
    requires NoDoubleSpace(s)
    ensures NoDoubleSpace(s[lo..hi])
  {
    var t := s[lo..hi];
    forall i | 0 <= i < |t| - 1
      ensures t[i] != ' ' || t[i + 1] != ' '
    {
      assert t[i] == s[lo + i] && t[i + 1] == s[lo + i + 1];
    }
  }

  // ---------------------------------------------------------------------
  // Properties

  lemma {:induction false} DropMarksKeepsAllowed(s: string)
    requires AllAllowed(s)
    ensures DropMarks(s) == s
  {
    if |s| > 0 {
      DropMarksKeepsAllowed(s[1..]);
      assert s == [s[0]] + s[1..];
    }
  }

  lemma {:induction false} SqueezeKeepsSingleSpaced(s: string)
    requires NoDoubleSpace(s)
    ensures Squeeze(s) == s
  {
    if |s| > 1 {
      SqueezeKeepsSingleSpaced(s[1..]);
      assert s == [s[0]] + s[1..];
    }
  }

  /** A normalized string is a fixed point of Normalize. */
  lemma NormalizeFixesNormalized(s: string)
    requires IsNormalized(s)
    ensures Normalize(s) == s
  {
    assert Lower(s) == s && Nfd(s) == s;
    DropMarksKeepsAllowed(s);
    assert Mask(s) == s;
    SqueezeKeepsSingleSpaced(s);
  }

  /** When steps (a)-(c) already produce a normalized string, steps (d) and
      (e) leave it alone. */
  lemma NormalizeOfFolded(text: string, folded: string)
    requires Fold(text) == folded && IsNormalized(folded)
    ensures Normalize(text) == folded
  {
    assert Mask(folded) == folded;
    SqueezeKeepsSingleSpaced(folded);
  }

  /** When lower-casing alone produces a normalized string, that string is
      the normalized text. */
  lemma NormalizeOfLowered(text: string, lowered: string)
    requires Lower(text) == lowered && IsNormalized(lowered)
    ensures Normalize(text) == lowered
  {
    NormalizeIgnoresCase(text);
    NormalizeFixesNormalized(lowered);
  }

  /** Normalizing twice is normalizing once. */
  lemma NormalizeIdempotent(text: string)
    ensures Normalize(Normalize(text)) == Normalize(text)
  {
    NormalizeFixesNormalized(Normalize(text));
  }

  /** Lower-casing the input first does not change the normalized form. */
  lemma NormalizeIgnoresCase(text: string)
    ensures Normalize(Lower(text)) == Normalize(text)
  {
    LowerIdempotent(text);
    assert Fold(Lower(text)) == Fold(text);
  }

  lemma LowerIdempotent(s: string)
    ensures Lower(Lower(s)) == Lower(s)
  {
    var l := Lower(s);
    forall i | 0 <= i < |s|
      ensures Lower(l)[i] == l[i]
    {
      assert LowerChar(LowerChar(s[i])) == LowerChar(s[i]);
    }
  }

  lemma {:induction false} NfdAppend(a: string, b: string)
    ensures Nfd(a + b) == Nfd(a) + Nfd(b)
  {
    if |a| == 0 {
      assert a + b == b;
    } else {
      NfdAppend(a[1..], b);
      TailOfAppend(a, b);
      AppendAssoc(Decomposition(a[0]), Nfd(a[1..]), Nfd(b));
    }
  }

  /** DropMarks keeps every copy of every other character. */
  lemma {:induction false} DropMarksCounts(s: string)
    ensures forall c :: multiset(DropMarks(s))[c] == if IsNonspacingMark(c) then 0 else multiset(s)[c]
  {
    if |s| > 0 {
      DropMarksCounts(s[1..]);
      assert s == [s[0]] + s[1..];
    }
  }

  lemma {:induction false} DropMarksAppend(a: string, b: string)
    ensures DropMarks(a + b) == DropMarks(a) + DropMarks(b)
  {
    if |a| == 0 {
      assert a + b == b;
    } else {
      DropMarksAppend(a[1..], b);
      TailOfAppend(a, b);
      AppendAssoc([a[0]], DropMarks(a[1..]), DropMarks(b));
    }
  }

  lemma LowerAppend(a: string, b: string)
    ensures Lower(a + b) == Lower(a) + Lower(b)
  {
  }

  lemma FoldAppend(a: string, b: string)
    ensures Fold(a + b) == Fold(a) + Fold(b)
  {
    LowerAppend(a, b);
    NfdAppend(Lower(a), Lower(b));
    DropMarksAppend(Nfd(Lower(a)), Nfd(Lower(b)));
  }

  lemma FoldOfMark(mark: char)
    requires IsNonspacingMark(mark)
    ensures Fold([mark]) == ""
  {
    assert Lower([mark]) == [mark];
    assert Nfd([mark]) == [mark] + Nfd([]);
    assert DropMarks([mark]) == DropMarks([]);
  }

  /** Steps (a)-(c) work character by character, so a combining mark
      anywhere in the input leaves no trace in the normalized text. */
  lemma NormalizeIgnoresMarks(before: string, mark: char, after: string)
    requires IsNonspacingMark(mark)
    ensures Normalize(before + [mark] + after) == Normalize(before + after)
  {
    var fb, fa := Fold(before), Fold(after);
    calc {
      Fold(before + [mark] + after);
      { FoldAppend(before + [mark], after); }
      Fold(before + [mark]) + fa;
      { FoldAppend(before, [mark]); FoldOfMark(mark); assert fb + "" == fb; }
      fb + fa;
      { FoldAppend(before, after); }
      Fold(before + after);
    }
  }

  // ---------------------------------------------------------------------
  // Sequence facts, stated once so that the proofs above stay small

  /** `a` is `b` with some elements left out, order kept. */
  predicate IsSubsequence<T(==)>(a: seq<T>, b: seq<T>) {
    |a| == 0 || (|b| > 0 && ((a[0] == b[0] && IsSubsequence(a[1..], b[1..])) || IsSubsequence(a, b[1..])))
  }

  lemma TailOfAppend<T>(a: seq<T>, b: seq<T>)
    requires |a| > 0
    ensures (a + b)[0] == a[0] && (a + b)[1..] == a[1..] + b
  {
  }

  lemma AppendAssoc<T>(a: seq<T>, b: seq<T>, c: seq<T>)
    ensures a + (b + c) == (a + b) + c
  {
  }
}

=== FILE: scoring.dfy ===
/**
 How the scorer combines the metrics for one reference/hypothesis pair
 (score.py, `process_single`, without its printing): the word error rate of
 the texts, the Terminology Medical Recall error rate of the gold terms against the terms
 found in the hypothesis, and their blend.
 */
module Scoring {

  import opened Normalizer
  import opened Wer
  import opened TermMatcher
  import opened Tmr
  import opened Teme

  datatype Scores = Scores(wer: real, tmr: real, teme: real)

  function ScoreSingle(reference: string, hypothesis: string, refTerms: seq<string>,
                       severityWeights: Option<Weights>, alpha: real): (s: Scores)
    ensures s.wer >= 0.0
    ensures NonNegative(WeightsOrEmpty(severityWeights)) ==> 0.0 <= s.tmr <= 1.0
    ensures 0.0 <= alpha <= 1.0 ==> Min(s.wer, s.tmr) <= s.teme <= Max(s.wer, s.tmr)
  {
    var werValue := WordErrorRate(reference, hypothesis);
    var hypTerms := FindTermsInText(refTerms, hypothesis);
    var tmrValue := ComputeTmr(refTerms, hypTerms, severityWeights);
    var teme := TemeError(werValue, tmrValue, alpha);
    assert NonNegative(WeightsOrEmpty(severityWeights)) ==> 0.0 <= tmrValue <= 1.0 by {
      if NonNegative(WeightsOrEmpty(severityWeights)) {
        TmrBounds(refTerms, hypTerms, severityWeights);
      }
    }
    assert 0.0 <= alpha <= 1.0 ==> Min(werValue, tmrValue) <= teme <= Max(werValue, tmrValue) by {
      if 0.0 <= alpha <= 1.0 {
        TemeBetweenInputs(werValue, tmrValue, alpha);
      }
    }
    Scores(werValue, tmrValue, teme)
  }

  /** Fed the terms found in the hypothesis, Terminology Medical Recall counts as missed
      exactly the gold terms whose normalized form does not occur in the
      normalized hypothesis. */
  lemma MissedTermsAreUnmatched(refTerms: seq<string>, hypothesis: string)
    ensures forall t :: t in MissingTerms(refTerms, FindTermsInText(refTerms, hypothesis))
                   <==> t in refTerms && !Matches(t, Normalize(hypothesis))
  {
    FoundIffMatched(refTerms, hypothesis);
  }

  /** A hypothesis equal to the reference scores zero everywhere when every
      gold term occurs in it. */
  lemma PerfectTranscriptScoresZero(text: string, refTerms: seq<string>,
                                    severityWeights: Option<Weights>, alpha: real)
    requires forall t :: t in refTerms ==> Matches(t, Normalize(text))
    ensures ScoreSingle(text, text, refTerms, severityWeights, alpha) == Scores(0.0, 0.0, 0.0)
  {
    var found := FindTermsInText(refTerms, text);
    FoundIffMatched(refTerms, text);
    assert forall t :: t in refTerms ==> t in found;
    assert ComputeTmr(refTerms, found, severityWeights) == 0.0;
    WerOfIdenticalTexts(text);
    assert TemeError(0.0, 0.0, alpha) == 0.0 by {
      BlendIsShift(0.0, 0.0, alpha);
    }
  }
}

=== FILE: teme.dfy ===
/**
 The composite TEME-Error score (metrics.py, `teme_error`): a linear blend
 of word error rate and Terminology Medical Recall (an error rate).
 `alpha` is not validated; outside [0, 1] the blend extrapolates.
 */
module Teme {

  /** The blend weight used when the caller gives none. */
  const DefaultAlpha: real := 0.5

  function Min(a: real, b: real): real { if a <= b then a else b }
  function Max(a: real, b: real): real { if a <= b then b else a }

  function TemeError(wer: real, tmr: real, alpha: real := DefaultAlpha): (e: real)
    ensures alpha == 1.0 ==> e == wer
    ensures alpha == 0.0 ==> e == tmr
    ensures alpha == DefaultAlpha ==> e == (wer + tmr) / 2.0
  {
    alpha * wer + (1.0 - alpha) * tmr
  }

  /** For alpha in [0, 1] the blend lies between its two inputs. */
  lemma TemeBetweenInputs(wer: real, tmr: real, alpha: real)
    requires 0.0 <= alpha <= 1.0
    ensures Min(wer, tmr) <= TemeError(wer, tmr, alpha) <= Max(wer, tmr)
  {
    var d := wer - tmr;
    var scaled := alpha * d;
    BlendIsShift(wer, tmr, alpha);
    assert TemeError(wer, tmr, alpha) == tmr + scaled;
    if d <= 0.0 {
      ScaleNonPositive(alpha, d);
      assert Min(wer, tmr) == wer && Max(wer, tmr) == tmr;
    } else {
      ScaleNonNegative(alpha, d);
      assert Min(wer, tmr) == tmr && Max(wer, tmr) == wer;
    }
  }

  /** The blend moves from `tmr` towards `wer` by the fraction alpha. */
  lemma BlendIsShift(wer: real, tmr: real, alpha: real)
    ensures TemeError(wer, tmr, alpha) == tmr + alpha * (wer - tmr)
  {
    calc {
      TemeError(wer, tmr, alpha);
      alpha * wer + (1.0 - alpha) * tmr;
      alpha * wer + tmr - alpha * tmr;
      tmr + alpha * (wer - tmr);
    }
  }

  lemma ProductNonNegative(x: real, y: real)
    requires x >= 0.0 && y >= 0.0
    ensures x * y >= 0.0
  {
  }

  /** Scaling by a factor in [0, 1] keeps a non-negative value between
      zero and itself. */
  lemma ScaleNonNegative(alpha: real, d: real)
    requires 0.0 <= alpha <= 1.0 && d >= 0.0
    ensures 0.0 <= alpha * d <= d
  {
    ProductNonNegative(alpha, d);
    ProductNonNegative(1.0 - alpha, d);
    assert (1.0 - alpha) * d == d - alpha * d;
  }

  /** Scaling by a factor in [0, 1] keeps a non-positive value between
      itself and zero. */
  lemma ScaleNonPositive(alpha: real, d: real)
    requires 0.0 <= alpha <= 1.0 && d <= 0.0
    ensures d <= alpha * d <= 0.0
  {
    ScaleNonNegative(alpha, -d);
    assert alpha * (-d) == -(alpha * d);
  }
}

=== FILE: term_matcher.dfy ===
/**
 Term detection (score.py, `find_terms_in_text`): a gold term is found when
 its normalized form occurs as a contiguous substring of the normalized
 text. Matching is by substring, not on word boundaries, and the result
 holds the original terms, in input order, duplicates included.
 */
module TermMatcher {

  import opened Normalizer

  /** `p` occurs in `s` at offset `i`. */
  predicate OccursAt(p: string, s: string, i: int) {
    0 <= i && i + |p| <= |s| && s[i..i + |p|] == p
  }

  /** `p` occurs in `s` at some offset. */
  ghost predicate OccursIn(p: string, s: string) {
    exists i :: OccursAt(p, s, i)
  }

  /** Python's `p in s` for strings: scan every offset for `p` as a prefix. */
  function Contains(s: string, p: string): (b: bool)
    ensures b <==> OccursIn(p, s)
    decreases |s|
  {
    if p <= s then
      assert OccursAt(p, s, 0);
      true
    else if |s| == 0 then
      false
    else
      var b := Contains(s[1..], p);
      ContainsShift(s, p);
      b
  }

  lemma ContainsShift(s: string, p: string)
    requires |s| > 0 && !(p <= s)
    ensures OccursIn(p, s) <==> OccursIn(p, s[1..])
  {
    if OccursIn(p, s) {
      var i :| OccursAt(p, s, i);
      assert i != 0;
      assert s[1..][i - 1..i - 1 + |p|] == p;
      assert OccursAt(p, s[1..], i - 1);
    }
    if OccursIn(p, s[1..]) {
      var i :| OccursAt(p, s[1..], i);
      assert s[i + 1..i + 1 + |p|] == p;
      assert OccursAt(p, s, i + 1);
    }
  }

  /** The term is found in text that is already normalized. */
  function Matches(term: string, normalizedText: string): (b: bool)
    ensures b <==> OccursIn(Normalize(term), normalizedText)
  {
    Contains(normalizedText, Normalize(term))
  }

  /** The loop of score.py, over an already normalized text. */
  function FindTerms(terms: seq<string>, normalizedText: string): (found: seq<string>)
    ensures |found| <= |terms|
  {
    if |terms| == 0 then []
    else if Matches(terms[0], normalizedText) then [terms[0]] + FindTerms(terms[1..], normalizedText)
    else FindTerms(terms[1..], normalizedText)
  }

  /** The loop keeps terms in their input order. */
  lemma {:induction false} FindTermsIsSubsequence(terms: seq<string>, normalizedText: string)
    ensures IsSubsequence(FindTerms(terms, normalizedText), terms)
  {
    if |terms| > 0 {
      FindTermsIsSubsequence(terms[1..], normalizedText);
    }
  }

  /** The loop keeps every copy of a matching term and no copy of any other. */
  lemma {:induction false} FindTermsCounts(terms: seq<string>, normalizedText: string)
    ensures forall t :: multiset(FindTerms(terms, normalizedText))[t]
                     == if Matches(t, normalizedText) then multiset(terms)[t] else 0
  {
    if |terms| > 0 {
      FindTermsCounts(terms[1..], normalizedText);
      assert terms == [terms[0]] + terms[1..];
      if Matches(terms[0], normalizedText) {
        assert FindTerms(terms, normalizedText) == [terms[0]] + FindTerms(terms[1..], normalizedText);
      } else {
        assert FindTerms(terms, normalizedText) == FindTerms(terms[1..], normalizedText);
      }
    }
  }

  /** Normalizes the text once and keeps every term found in it. */
  function FindTermsInText(terms: seq<string>, text: string): (found: seq<string>)
    ensures IsSubsequence(found, terms)
    ensures forall t :: multiset(found)[t] == if Matches(t, Normalize(text)) then multiset(terms)[t] else 0
  {
    FindTermsIsSubsequence(terms, Normalize(text));
    FindTermsCounts(terms, Normalize(text));
    FindTerms(terms, Normalize(text))
  }

  // ---------------------------------------------------------------------
  // Properties

  lemma {:induction false} SubsequenceNoLonger(a: seq<string>, b: seq<string>)
    requires IsSubsequence(a, b)
    ensures |a| <= |b|
  {
    if |a| > 0 {
      if a[0] == b[0] && IsSubsequence(a[1..], b[1..]) {
        SubsequenceNoLonger(a[1..], b[1..]);
      } else {
        SubsequenceNoLonger(a, b[1..]);
      }
    }
  }

  /** The found terms are exactly the input terms whose normalized form
      occurs in the normalized text, never more than the input holds. */
  lemma FoundIffMatched(terms: seq<string>, text: string)
    ensures var found := FindTermsInText(terms, text);
            && |found| <= |terms|
            && forall t :: t in found <==> t in terms && Matches(t, Normalize(text))
  {
    var found := FindTermsInText(terms, text);
    SubsequenceNoLonger(found, terms);
    forall t
      ensures t in found <==> t in terms && Matches(t, Normalize(text))
    {
      assert t in found <==> multiset(found)[t] > 0;
      assert t in terms <==> multiset(terms)[t] > 0;
    }
  }

  /** The empty string occurs in every text. */
  lemma EmptyOccursEverywhere(s: string)
    ensures Contains(s, "")
  {
    assert OccursAt("", s, 0);
  }

  /** A term that normalizes to the empty string (such as "!!") is found in
      every text. */
  lemma EmptyTermAlwaysFound(terms: seq<string>, text: string, t: string)
    requires t in terms && Normalize(t) == ""
    ensures t in FindTermsInText(terms, text)
  {
    EmptyOccursEverywhere(Normalize(text));
    FoundIffMatched(terms, text);
  }
}

=== FILE: tmr.dfy ===
/**
 Severity-weighted Terminology Medical Recall, an error rate (metrics.py, `compute_tmr`).

 The total weight is summed over the gold term list, duplicates included;
 the missed weight is summed over the SET of gold terms absent from the
 recognized terms, so a duplicated gold term counts once there. A term
 without an entry in the weight map weighs 1, and the lookup uses the term
 exactly as given. The result is missed / total, or 0.0 for a zero total.
 */
module Tmr {

  datatype Option<T> = None | Some(value: T)

  /** Severity weights by raw (unnormalized) term. */
  type Weights = map<string, real>

  /** A term without an entry weighs 1. */
  function Weight(weights: Weights, t: string): (w: real)
    ensures t !in weights ==> w == 1.0
    ensures NonNegative(weights) ==> w >= 0.0
  {
    if t in weights then weights[t] else 1.0
  }

  /** The weights of the listed terms, each copy counted. */
  function WeightSum(weights: Weights, ts: seq<string>): (sum: real)
    ensures NonNegative(weights) ==> sum >= 0.0
    ensures (forall i :: 0 <= i < |ts| ==> ts[i] !in weights) ==> sum == |ts| as real
  {
    if |ts| == 0 then 0.0 else Weight(weights, ts[0]) + WeightSum(weights, ts[1..])
  }

  predicate NonNegative(weights: Weights) {
    forall t :: t in weights ==> weights[t] >= 0.0
  }

  predicate NoDuplicates(ts: seq<string>) {
    forall i, j :: 0 <= i < j < |ts| ==> ts[i] != ts[j]
  }

  /** The set difference set(refTerms) - set(hypTerms), each element listed
      once. The order of the listing is immaterial (see SumOrderFree). */
  function MissingTerms(refTerms: seq<string>, hypTerms: seq<string>): (missing: seq<string>)
    ensures NoDuplicates(missing)
    ensures forall t :: t in missing <==> t in refTerms && t !in hypTerms
  {
    if |refTerms| == 0 then []
    else
      var rest := MissingTerms(refTerms[1..], hypTerms);
      assert forall t :: t in refTerms <==> t == refTerms[0] || t in refTerms[1..];
      if refTerms[0] in hypTerms || refTerms[0] in rest then rest else [refTerms[0]] + rest
  }

  /** `None` stands for an absent weight map and behaves as the empty map. */
  function WeightsOrEmpty(severityWeights: Option<Weights>): (weights: Weights)
    ensures severityWeights == None ==> weights == map[]
    ensures severityWeights.Some? ==> weights == severityWeights.value
  {
    if severityWeights.Some? then severityWeights.value else map[]
  }

  function ComputeTmr(refTerms: seq<string>, hypTerms: seq<string>, severityWeights: Option<Weights>): (tmr: real)
    ensures (forall t :: t in refTerms ==> t in hypTerms) ==> tmr == 0.0
    ensures WeightSum(WeightsOrEmpty(severityWeights), refTerms) == 0.0 ==> tmr == 0.0
  {
    var weights := WeightsOrEmpty(severityWeights);
    var total := WeightSum(weights, refTerms);
    var missing := MissingTerms(refTerms, hypTerms);
    var missed := WeightSum(weights, missing);
    assert (forall t :: t in refTerms ==> t in hypTerms) ==> missing == [] by {
      if |missing| > 0 { assert missing[0] in missing; }
    }
    var incorrect := 0.0;  // metrics.py reserves this and always leaves it 0
    var penalty := missed + incorrect;
    if total != 0.0 then penalty / total else 0.0
  }

  // ---------------------------------------------------------------------
  // Sums over duplicate-free lists

  lemma HeadIsMember(ts: seq<string>)
    ensures |ts| > 0 ==> ts[0] in ts
  {
  }

  function RemoveAt(ts: seq<string>, k: nat): seq<string>
    requires k < |ts|
  {
    ts[..k] + ts[k + 1..]
  }

  lemma {:induction false} SumRemoveAt(weights: Weights, ts: seq<string>, k: nat)
    requires k < |ts|
    ensures WeightSum(weights, ts) == Weight(weights, ts[k]) + WeightSum(weights, RemoveAt(ts, k))
  {
    if k > 0 {
      SumRemoveAt(weights, ts[1..], k - 1);
      assert RemoveAt(ts, k) == [ts[0]] + RemoveAt(ts[1..], k - 1);
    } else {
      assert RemoveAt(ts, 0) == ts[1..];
    }
  }

  lemma RemoveAtKeepsOthers(ts: seq<string>, k: nat)
    requires k < |ts| && NoDuplicates(ts)
    ensures NoDuplicates(RemoveAt(ts, k))
    ensures forall t :: t in RemoveAt(ts, k) <==> t in ts && t != ts[k]
  {
    var r := RemoveAt(ts, k);
    forall t | t in ts && t != ts[k]
      ensures t in r
    {
      var i :| 0 <= i < |ts| && ts[i] == t;
      if i < k { assert r[i] == t; } else { assert r[i - 1] == t; }
    }
  }

  /** Two duplicate-free lists of the same terms have the same weighted sum:
      summing a set through any listing of it is well defined. */
  lemma {:induction false} SumOrderFree(weights: Weights, a: seq<string>, b: seq<string>)
    requires NoDuplicates(a) && NoDuplicates(b)
    requires forall t :: t in a <==> t in b
    ensures WeightSum(weights, a) == WeightSum(weights, b)
  {
    if |a| == 0 {
      HeadIsMember(b);
    } else {
      assert a[0] in b;
      var k :| 0 <= k < |b| && b[k] == a[0];
      SumRemoveAt(weights, b, k);
      RemoveAtKeepsOthers(b, k);
      assert forall t :: t in a[1..] <==> t in a && t != a[0] by {
        forall t | t in a && t != a[0] ensures t in a[1..] {
          var i :| 0 <= i < |a| && a[i] == t;
          assert a[1..][i - 1] == t;
        }
      }
      SumOrderFree(weights, a[1..], RemoveAt(b, k));
    }
  }

  /** With non-negative weights, a duplicate-free list of terms drawn from
      `b` weighs no more than `b`. */
  lemma {:induction false} SubsetSumBounded(weights: Weights, a: seq<string>, b: seq<string>)
    requires NonNegative(weights) && NoDuplicates(a)
    requires forall t :: t in a ==> t in b
    ensures 0.0 <= WeightSum(weights, a) <= WeightSum(weights, b)
    decreases |b|
  {
    if |b| == 0 {
      HeadIsMember(a);
    } else if b[0] in a {
      var k :| 0 <= k < |a| && a[k] == b[0];
      SumRemoveAt(weights, a, k);
      RemoveAtKeepsOthers(a, k);
      assert forall t :: t in RemoveAt(a, k) ==> t in b[1..] by {
        forall t | t in RemoveAt(a, k) ensures t in b[1..] {
          var i :| 0 <= i < |b| && b[i] == t;
          assert i != 0;
          assert b[1..][i - 1] == t;
        }
      }
      SubsetSumBounded(weights, RemoveAt(a, k), b[1..]);
    } else {
      assert forall t :: t in a ==> t in b[1..] by {
        forall t | t in a ensures t in b[1..] {
          var i :| 0 <= i < |b| && b[i] == t;
          assert i != 0;
          assert b[1..][i - 1] == t;
        }
      }
      SubsetSumBounded(weights, a, b[1..]);
    }
  }

  lemma {:induction false} UnweightedSumIsCount(ts: seq<string>)
    ensures WeightSum(map[], ts) == |ts| as real
  {
    if |ts| > 0 {
      UnweightedSumIsCount(ts[1..]);
    }
  }

  lemma {:induction false} MissingDependsOnSharedTerms(refTerms: seq<string>, h1: seq<string>, h2: seq<string>)
    requires forall t :: t in refTerms ==> (t in h1 <==> t in h2)
    ensures MissingTerms(refTerms, h1) == MissingTerms(refTerms, h2)
  {
    if |refTerms| > 0 {
      assert forall t :: t in refTerms[1..] ==> t in refTerms;
      MissingDependsOnSharedTerms(refTerms[1..], h1, h2);
    }
  }

  // ---------------------------------------------------------------------
  // Properties of Terminology Medical Recall

  /** With non-negative weights the rate lies in [0, 1]. */
  lemma TmrBounds(refTerms: seq<string>, hypTerms: seq<string>, severityWeights: Option<Weights>)
    requires NonNegative(WeightsOrEmpty(severityWeights))
    ensures 0.0 <= ComputeTmr(refTerms, hypTerms, severityWeights) <= 1.0
  {
    var weights := WeightsOrEmpty(severityWeights);
    var missing := MissingTerms(refTerms, hypTerms);
    SubsetSumBounded(weights, missing, refTerms);
    var missed, total := WeightSum(weights, missing), WeightSum(weights, refTerms);
    if total != 0.0 {
      FractionBounds(missed, total);
    }
  }

  /** An absent weight map is the same as an empty one. */
  lemma TmrAbsentWeightsAreEmpty(refTerms: seq<string>, hypTerms: seq<string>)
    ensures ComputeTmr(refTerms, hypTerms, None) == ComputeTmr(refTerms, hypTerms, Some(map[]))
  {
  }

  /** Without weights every term weighs 1: the rate is the number of
      distinct missed terms over the length of the gold list. */
  lemma TmrUnweighted(refTerms: seq<string>, hypTerms: seq<string>)
    ensures ComputeTmr(refTerms, hypTerms, None)
         == if |refTerms| == 0 then 0.0
            else |MissingTerms(refTerms, hypTerms)| as real / |refTerms| as real
  {
    UnweightedSumIsCount(refTerms);
    UnweightedSumIsCount(MissingTerms(refTerms, hypTerms));
  }

  /** Recognized terms that are not gold terms do not change the rate:
      only which gold terms were recognized matters. */
  lemma TmrIgnoresSpuriousTerms(refTerms: seq<string>, h1: seq<string>, h2: seq<string>, severityWeights: Option<Weights>)
    requires forall t :: t in refTerms ==> (t in h1 <==> t in h2)
    ensures ComputeTmr(refTerms, h1, severityWeights) == ComputeTmr(refTerms, h2, severityWeights)
  {
    MissingDependsOnSharedTerms(refTerms, h1, h2);
  }

  /** When no gold term is recognized, a duplicate-free gold list with a
      non-zero total is missed entirely. */
  lemma TmrAllMissed(refTerms: seq<string>, hypTerms: seq<string>, severityWeights: Option<Weights>)
    requires NoDuplicates(refTerms)
    requires forall t :: t in refTerms ==> t !in hypTerms
    requires WeightSum(WeightsOrEmpty(severityWeights), refTerms) != 0.0
    ensures ComputeTmr(refTerms, hypTerms, severityWeights) == 1.0
  {
    var weights := WeightsOrEmpty(severityWeights);
    SumOrderFree(weights, MissingTerms(refTerms, hypTerms), refTerms);
    QuotientOfEquals(WeightSum(weights, refTerms));
  }

  /** A share of a positive whole lies in [0, 1]. */
  lemma FractionBounds(part: real, whole: real)
    requires 0.0 <= part <= whole && whole != 0.0
    ensures 0.0 <= part / whole <= 1.0
  {
    var q := part / whole;
    assert q * whole == part;
    assert (1.0 - q) * whole == whole - part;
  }

  lemma QuotientOfEquals(x: real)
    requires x != 0.0
    ensures x / x == 1.0
  {
  }
}

=== FILE: tokens.dfy ===
/**
 Whitespace tokenization of normalized text (the `.split()` calls in
 metrics.py, `compute_wer`). Normalized text holds no whitespace other than
 the plain space, so splitting on runs of ' ' is the whole story.
 */
module Tokens {

  import opened Normalizer

  /** A token: non-empty and free of spaces. */
  predicate IsToken(w: string) {
    |w| > 0 && ' ' !in w
  }

  predicate AllTokens(ws: seq<string>) {
    forall i :: 0 <= i < |ws| ==> IsToken(ws[i])
  }

  /** The longest space-free prefix of `s`. */
  function Word(s: string): (w: string)
    ensures w <= s
    ensures ' ' !in w
    ensures |w| < |s| ==> s[|w|] == ' '
    ensures |s| > 0 && s[0] != ' ' ==> |w| > 0
  {
    if |s| == 0 || s[0] == ' ' then "" else [s[0]] + Word(s[1..])
  }

  /** The maximal runs of non-space characters of `s`, left to right. */
  function Split(s: string): (ws: seq<string>)
    ensures AllTokens(ws)
    ensures |s| > 0 && s[0] != ' ' ==> |ws| > 0
    decreases |s|
  {
    if |s| == 0 then []
    else if s[0] == ' ' then Split(s[1..])
    else
      var w := Word(s);
      [w] + Split(s[|w|..])
  }

  /** The words separated by single spaces. */
  function Join(ws: seq<string>): string {
    if |ws| == 0 then ""
    else if |ws| == 1 then ws[0]
    else ws[0] + " " + Join(ws[1..])
  }

  /** A string without leading, trailing or doubled spaces is the join of
      its tokens. */
  lemma {:induction false} JoinSplit(s: string)
    requires NoDoubleSpace(s) && Trimmed(s)
    ensures Join(Split(s)) == s
    decreases |s|
  {
    if |s| > 0 {
      var w := Word(s);
      if |w| == |s| {
        LastWord(s);
      } else {
        var t := s[|w| + 1..];
        WordThenRest(s);
        RestIsTrimmed(s);
        JoinSplit(t);
        TailOfAppend([w], Split(t));
      }
    }
  }

  /** A string that is one word splits into just that word. */
  lemma LastWord(s: string)
    requires |s| > 0 && s[0] != ' ' && |Word(s)| == |s|
    ensures Split(s) == [s]
  {
    assert Word(s) == s;
    assert s[|s|..] == "";
  }

  /** A word followed by a space and more text. */
  lemma WordThenRest(s: string)
    requires |s| > 0 && s[0] != ' ' && |Word(s)| < |s|
    ensures s == Word(s) + " " + s[|Word(s)| + 1..]
    ensures Split(s) == [Word(s)] + Split(s[|Word(s)| + 1..])
  {
    WordSpaceRest(s);
    SplitAfterWord(s);
  }

  lemma WordSpaceRest(s: string)
    requires |Word(s)| < |s|
    ensures s == Word(s) + " " + s[|Word(s)| + 1..]
  {
    var k := |Word(s)|;
    SplitAround(s, k);
    assert s[..k] == Word(s);
  }

  lemma SplitAfterWord(s: string)
    requires |s| > 0 && s[0] != ' ' && |Word(s)| < |s|
    ensures Split(s) == [Word(s)] + Split(s[|Word(s)| + 1..])
  {
    var k := |Word(s)|;
    assert Split(s) == [Word(s)] + Split(s[k..]);
    SpaceThenRest(s[k..]);
    assert s[k..][1..] == s[k + 1..];
  }

  lemma SplitAround(s: string, k: int)
    requires 0 <= k < |s|
    ensures s == s[..k] + [s[k]] + s[k + 1..]
  {
  }

  lemma SpaceThenRest(u: string)
    requires |u| > 0 && u[0] == ' '
    ensures Split(u) == Split(u[1..])
  {
  }

  /** What follows the first word and its space keeps the shape. */
  lemma RestIsTrimmed(s: string)
    requires NoDoubleSpace(s) && Trimmed(s)
    requires |s| > 0 && |Word(s)| < |s|
    ensures var t := s[|Word(s)| + 1..];
      NoDoubleSpace(t) && Trimmed(t) && 0 < |t|
  {
    var k := |Word(s)| + 1;
    assert s[k - 1] == ' ';
    assert k < |s|;
    SliceKeepsSingleSpacing(s, k, |s|);
  }

  lemma {:induction false} WordOfJoin(w: string, rest: string)
    requires ' ' !in w
    requires |rest| > 0 ==> rest[0] == ' '
    ensures Word(w + rest) == w
  {
    if |w| == 0 {
      assert w + rest == rest;
    } else {
      WordOfJoin(w[1..], rest);
      TailOfAppend(w, rest);
      assert [w[0]] + w[1..] == w;
    }
  }

  /** Splitting the join of a token sequence gives the tokens back. */
  lemma {:induction false} SplitJoin(ws: seq<string>)
    requires AllTokens(ws)
    ensures Split(Join(ws)) == ws
  {
    if |ws| == 1 {
      var w := ws[0];
      WordOfJoin(w, "");
      assert w + "" == w;
      assert w[|w|..] == "";
    } else if |ws| > 1 {
      var w, j := ws[0], Join(ws[1..]);
      SplitJoin(ws[1..]);
      SplitJoinStep(w, j);
      TailOfAppend([w], ws[1..]);
    }
  }

  lemma SplitJoinStep(w: string, j: string)
    requires IsToken(w)
    ensures Split(w + " " + j) == [w] + Split(j)
  {
    WordOfJoin(w, " " + j);
    AppendAssoc(w, " ", j);
    assert (w + (" " + j))[|w|..] == " " + j;
    assert (" " + j)[1..] == j;
  }

  // ---------------------------------------------------------------------
  // Step (e) keeps the words

  /** A leading space does not change the words. */
  lemma SplitOfSpaceThen(x: string)
    ensures Split([' '] + x) == Split(x)
  {
    TailOfAppend([' '], x);
  }

  /** A non-space character in front either is a word of its own or joins
      the first word. */
  lemma SplitOfCharThen(c: char, x: string)
    requires c != ' '
    ensures |x| == 0 || x[0] == ' ' ==> Split([c] + x) == [[c]] + Split(x)
    ensures |x| > 0 && x[0] != ' ' ==> |Split(x)| > 0 && Split([c] + x) == [[c] + Split(x)[0]] + Split(x)[1..]
  {
    var s, w := [c] + x, Word(x);
    WordOfCharThen(c, x);
    SplitOfWordThen(s);
    DropAfterChar(c, x, |w|);
    if |x| == 0 || x[0] == ' ' {
      assert w == "";
      assert [c] + w == [c];
      assert x[|w|..] == x;
    } else {
      SplitOfWordThen(x);
    }
  }

  lemma WordOfCharThen(c: char, x: string)
    requires c != ' '
    ensures Word([c] + x) == [c] + Word(x)
  {
    TailOfAppend([c], x);
  }

  lemma DropAfterChar(c: char, x: string, k: nat)
    requires k <= |x|
    ensures ([c] + x)[k + 1..] == x[k..]
  {
  }

  /** Squeezing runs of spaces keeps the words. */
  lemma {:induction false} SplitOfSqueeze(s: string)
    ensures Split(Squeeze(s)) == Split(s)
    decreases |s|
  {
    if |s| > 1 {
      var x := s[1..];
      assert s == [s[0]] + x;
      SplitOfSqueeze(x);
      if s[0] == ' ' {
        SplitOfSpaceThen(x);
        if s[1] != ' ' {
          SplitOfSpaceThen(Squeeze(x));
        }
      } else {
        SplitOfCharThen(s[0], x);
        SplitOfCharThen(s[0], Squeeze(x));
      }
    }
  }

  /** Dropping leading spaces keeps the words. */
  lemma {:induction false} SplitOfTrimStart(s: string)
    ensures Split(TrimStart(s)) == Split(s)
    decreases |s|
  {
    if |s| > 0 && s[0] == ' ' {
      SplitOfTrimStart(s[1..]);
    }
  }

  /** A trailing space does not change the words. */
  lemma {:induction false} SplitOfThenSpace(x: string)
    ensures Split(x + [' ']) == Split(x)
    decreases |x|
  {
    if |x| == 0 {
      assert x + [' '] == [' '];
      SplitOfSpaceThen("");
    } else {
      var y := x[1..];
      assert x == [x[0]] + y;
      assert x + [' '] == [x[0]] + (y + [' ']);
      SplitOfThenSpace(y);
      if x[0] == ' ' {
        SplitOfSpaceThen(y);
        SplitOfSpaceThen(y + [' ']);
      } else {
        SplitOfCharThen(x[0], y);
        SplitOfCharThen(x[0], y + [' ']);
        if |y| > 0 {
          assert (y + [' '])[0] == y[0];
        }
      }
    }
  }

  /** The words of a string that starts with a non-space: its first word,
      then the words of the rest. */
  lemma SplitOfWordThen(s: string)
    requires |s| > 0 && s[0] != ' '
    ensures Split(s) == [Word(s)] + Split(s[|Word(s)|..])
  {
  }

  /** Dropping trailing spaces keeps the words. */
  lemma {:induction false} SplitOfTrimEnd(s: string)
    ensures Split(TrimEnd(s)) == Split(s)
    decreases |s|
  {
    if |s| > 0 && s[|s| - 1] == ' ' {
      var x := s[..|s| - 1];
      assert s == x + [' '];
      SplitOfThenSpace(x);
      SplitOfTrimEnd(x);
    }
  }

  /** Trimming both ends keeps the words. */
  lemma SplitOfStrip(s: string)
    ensures Split(Strip(s)) == Split(s)
  {
    SplitOfTrimStart(s);
    SplitOfTrimEnd(TrimStart(s));
  }

  /** Step (e) keeps the words of its input, in order: it changes only the
      spacing between them. */
  lemma SplitOfCollapse(s: string)
    ensures Split(Collapse(s)) == Split(s)
  {
    SplitOfSqueeze(s);
    SplitOfStrip(Squeeze(s));
  }

  /** Normalization is the words of the masked, folded text joined by single
      spaces: masking turns every other character into a word break, and
      step (e) only changes the spacing between words. */
  lemma NormalizeIsJoinedWords(text: string)
    ensures Normalize(text) == Join(Split(Mask(Fold(text))))
  {
    var masked := Mask(Fold(text));
    SplitOfCollapse(masked);
    JoinSplit(Normalize(text));
  }
}

=== FILE: wer.dfy ===
/**
 Word error rate (metrics.py, `compute_wer`): the token edit distance
 between the normalized reference and hypothesis, divided by the number of
 reference tokens; 0.0 when the normalized reference has no tokens.
 Scores are exact rationals (`real`).
 */
module Wer {

  import opened Normalizer
  import opened Tokens
  import opened EditDistance

  /** The whitespace tokens of the normalized text. */
  function TokensOf(text: string): (ws: seq<string>)
    ensures AllTokens(ws)
    ensures |ws| == 0 <==> Normalize(text) == ""
    ensures Join(ws) == Normalize(text)
  {
    var n := Normalize(text);
    JoinSplit(n);
    Split(n)
  }

  /** A normalized text made of the given tokens splits back into them. */
  lemma TokensOfNormalized(text: string, ws: seq<string>)
    requires IsNormalized(text) && AllTokens(ws) && Join(ws) == text
    ensures TokensOf(text) == ws
  {
    NormalizeFixesNormalized(text);
    SplitJoin(ws);
  }

  /** The error rate of a hypothesis token sequence against a reference one. */
  function Rate(r: seq<string>, h: seq<string>): (rate: real)
    ensures rate >= 0.0
    ensures |r| == 0 ==> rate == 0.0
    ensures |r| > 0 ==> rate * (|r| as real) == Distance(r, h) as real
  {
    if |r| == 0 then 0.0 else Distance(r, h) as real / |r| as real
  }

  function WordErrorRate(reference: string, hypothesis: string): (wer: real)
    ensures wer >= 0.0
    ensures Normalize(reference) == "" ==> wer == 0.0
  {
    Rate(TokensOf(reference), TokensOf(hypothesis))
  }

  /** The algorithm of metrics.py: normalize, split, fill the table, divide. */
  method ComputeWer(reference: string, hypothesis: string) returns (wer: real)
    ensures wer == WordErrorRate(reference, hypothesis)
  {
    var r := Split(Normalize(reference));
    var h := Split(Normalize(hypothesis));
    var n := |r|;
    var d := ComputeDistance(r, h);
    if n != 0 {
      wer := d as real / n as real;
    } else {
      wer := 0.0;
    }
  }

  // ---------------------------------------------------------------------
  // Properties of the rate on token sequences

  lemma RateZeroIff(r: seq<string>, h: seq<string>)
    ensures Rate(r, h) == 0.0 <==> (|r| == 0 || r == h)
  {
    DistanceZeroIffEqual(r, h);
    if |r| > 0 && Distance(r, h) > 0 {
      PositiveQuotient(Distance(r, h) as real, |r| as real);
    }
  }

  lemma PositiveQuotient(a: real, n: real)
    requires a > 0.0 && n > 0.0
    ensures a / n > 0.0
  {
  }

  lemma DivideMonotone(a: real, b: real, n: real)
    requires a <= b && n > 0.0
    ensures a / n <= b / n
  {
  }

  lemma SelfQuotient(n: real)
    requires n > 0.0
    ensures n / n == 1.0
  {
  }

  lemma RateBounds(r: seq<string>, h: seq<string>)
    requires |r| > 0
    ensures var n, m := |r| as real, |h| as real;
            && (n - m) / n <= Rate(r, h)
            && (m - n) / n <= Rate(r, h)
            && Rate(r, h) <= (if n <= m then m else n) / n
  {
    DistanceBounds(r, h);
    var n, m, d := |r| as real, |h| as real, Distance(r, h) as real;
    assert n - m <= d && m - n <= d && d <= (if n <= m then m else n);
    DivideMonotone(n - m, d, n);
    DivideMonotone(m - n, d, n);
    DivideMonotone(d, if n <= m then m else n, n);
  }

  lemma RateAtMostOne(r: seq<string>, h: seq<string>)
    requires |h| <= |r|
    ensures Rate(r, h) <= 1.0
  {
    if |r| > 0 {
      DistanceBounds(r, h);
      var n, d := |r| as real, Distance(r, h) as real;
      DivideMonotone(d, n, n);
      SelfQuotient(n);
    }
  }

  // ---------------------------------------------------------------------
  // Properties of the word error rate

  /** A transcript identical to its reference has no errors. */
  lemma WerOfIdenticalTexts(text: string)
    ensures WordErrorRate(text, text) == 0.0
  {
    RateZeroIff(TokensOf(text), TokensOf(text));
  }

  /** The rate is zero exactly when the reference is empty or the two texts
      normalize to the same text. */
  lemma WerZeroIff(reference: string, hypothesis: string)
    ensures WordErrorRate(reference, hypothesis) == 0.0
        <==> (Normalize(reference) == "" || Normalize(reference) == Normalize(hypothesis))
  {
    var r, h := TokensOf(reference), TokensOf(hypothesis);
    RateZeroIff(r, h);
  }

  /** With a non-empty reference of n tokens and a hypothesis of m tokens,
      |n - m| / n <= WER <= max(n, m) / n. */
  lemma WerBounds(reference: string, hypothesis: string)
    requires Normalize(reference) != ""
    ensures var n, m := |TokensOf(reference)| as real, |TokensOf(hypothesis)| as real;
            && (n - m) / n <= WordErrorRate(reference, hypothesis)
            && (m - n) / n <= WordErrorRate(reference, hypothesis)
            && WordErrorRate(reference, hypothesis) <= (if n <= m then m else n) / n
  {
    RateBounds(TokensOf(reference), TokensOf(hypothesis));
  }

  /** A hypothesis with no more tokens than the reference keeps the rate at
      most 1. */
  lemma WerAtMostOneForShortHypotheses(reference: string, hypothesis: string)
    requires |TokensOf(hypothesis)| <= |TokensOf(reference)|
    ensures WordErrorRate(reference, hypothesis) <= 1.0
  {
    RateAtMostOne(TokensOf(reference), TokensOf(hypothesis));
  }
}
